=== FILE: README.md ===
# Greedy garbage-collection route, in Dafny

This project models the route optimiser of `script.js`, the page script of a
small garbage-collection route planner. The user types points such as
`(2,3),(4,1),(7,7)`. `optimizeRoute` then does three things:

- It trims the text and refuses it when nothing is left.
- It extracts every `(digits,digits)` group with the regular expression
  `\((\d+),(\d+)\)`, and refuses the input when fewer than two points are found.
- From the first point, it builds a route by the greedy nearest-neighbour
  rule. While points are still unvisited, it moves to the nearest one (the
  earliest one on a tie), adds the leg to the running total, appends the
  point to the route and removes it from the unvisited list.

The model has five modules, one file each:

- `Wrappers` (`wrappers.dfy`): the `Option` and `Result` datatypes.
- `Geometry` (`geometry.dfy`): points with natural coordinates and the
  `distance` helper. The distance is characterised exactly rather than
  computed in floating point, so its square is the integer squared distance.
- `Parser` (`parser.dfy`):
  - `input.trim()`;
  - the regular expression, described declaratively (`Occurrence`) and as
    the global left-to-right search the engine performs (`MatchAt`, `Scan`,
    `PointsFrom`);
  - `Number(...)` on a digit run;
  - the two validation errors.

  For round trips it also has an inverse, `Format`, which writes points the
  way the input field expects them.
- `Greedy` (`greedy.dfy`):
  - the greedy route as a specification (`NearestIndex`, `GreedyFrom`,
    `GreedyTour`, `PathLength`);
  - the source's loops as methods proved against that specification:
    `FindNearest` for `reduce`, `IndexOf` for `indexOf` and `GreedyRoute`
    for the `while` loop with `shift`, `push` and `splice`.
- `Optimizer` (`optimizer.dfy`): `optimizeRoute` without the page, from the
  input text to either an error or the route with its total distance.

## Model

| member | source | states |
|---|---|---|
| Geometry.SqDist | script.js:2-3 | the squared distance is zero exactly when the two points are equal |
| Geometry.SqDistSymmetric | script.js:2-3 | the squared distance from a to b equals the one from b to a |
| Geometry.IsEuclidean | script.js:2-3 | `distance(a, b)` is the non-negative real whose square is (ax-bx)²+(ay-by)²; the `leg` parameter that stands for `distance` everywhere in the model is required to satisfy it |
| Geometry.DistanceZero | script.js:2-3 | `distance(a, a)` is 0, and `distance(a, b)` is 0 only when a and b are the same point |
| Geometry.DistanceSymmetric | script.js:2-3 | `distance(a, b) == distance(b, a)` |
| Geometry.DistanceOfSquare | script.js:2-3 | a leg whose squared length is n*n has length exactly n |
| Geometry.EuclideanRanks | script.js:2-3 | because the square root is monotone, comparing `distance` values from one origin is the same as comparing squared distances |
| Geometry.RanksAt | script.js:2-3 | for one origin and two targets, the distances are ordered exactly as the squared distances are |
| Parser.IsWhitespace | script.js:8 | the characters `trim()` removes: the ECMAScript WhiteSpace and LineTerminator characters |
| Parser.TrimStart | script.js:8 | the result is a suffix of the text, everything dropped is whitespace, and the result does not start with whitespace |
| Parser.TrimEnd | script.js:8 | the result is a prefix of the text, everything dropped is whitespace, and the result does not end with whitespace |
| Parser.Trim | script.js:8 | `trim()` gives the empty string exactly for whitespace-only text; otherwise the result starts and ends with non-whitespace |
| Parser.TrimMiddle | script.js:8 | `trim()` keeps exactly a contiguous middle part of the text: everything before it and everything after it is whitespace |
| Parser.ValueIn | script.js:18 | `Number` on a run of digits, read left to right in base 10 with leading zeros allowed; `NumeralValue` and `ValuePrefix` state its properties |
| Parser.DigitRunEnd | script.js:17 | greedy `\d+`: the run from k is all digits and is followed by a non-digit or the end of the text |
| Parser.RunEndAt | script.js:17 | any maximal digit run ends where the greedy `\d+` stops |
| Parser.Occurrence | script.js:17 | s[i..j] is `(`, a non-empty run of decimal digits, `,`, a non-empty run of decimal digits and `)`, with the comma at c: what it means for `\((\d+),(\d+)\)` to match there |
| Parser.MatchAt | script.js:17 | an attempt anchored at i yields only a genuine match of `\((\d+),(\d+)\)` starting at i |
| Parser.NoMatchAt | script.js:17 | when the anchored attempt fails, no match of the expression starts at that position |
| Parser.OccurrenceUnique | script.js:17 | a match is fixed by where it starts: its comma and its end follow from the text |
| Parser.NoOpenInside | script.js:17 | no match can start strictly inside another match |
| Parser.Scan | script.js:17 | the global `/g` search: try a match at the current position, record it and resume at its end, or move one character on; `ScanSound`, `ScanFinds` and `ScanOrdered` prove it reports exactly the matches of the text, in order |
| Parser.ScanSound | script.js:17 | the global search reports only genuine matches, none before where it starts |
| Parser.ScanFinds | script.js:17 | the global search misses no match: every occurrence from i onwards is among those reported, so any text outside matches is skipped |
| Parser.ScanOrdered | script.js:17 | the reported matches do not overlap and appear in the order of the text |
| Parser.FirstMatchCovers | script.js:17 | a match found at i is the only one starting anywhere before its end |
| Parser.MatchPoint | script.js:18-19 | a match becomes the point whose x and y are the values of its two digit runs |
| Parser.PointsFrom | script.js:17-20 | the points `match(...)?.map(...)` yields from position i on; `PointsFromMatches` ties them to the reported matches, and `ScanFormatted` shows they are exactly the points written in the text |
| Parser.PointsFromMatches | script.js:17-20 | the points built while searching are exactly `MatchPoint` of each reported match, in order |
| Parser.ScanPoints | script.js:17-20 | the points of every match in the whole text, left to right, as `input.match(...)?.map(...)` gives them (an empty list where `match` gives `null`) |
| Parser.NumeralValue | script.js:18 | `Number` of the decimal numeral of n is n |
| Parser.ValuePrefix | script.js:18 | the value of a digit run does not change when text follows it |
| Parser.Parse | script.js:8-25 | empty or whitespace-only input is refused as `EmptyInput`; otherwise fewer than two matched points is refused as `TooFewPoints`; otherwise the result is the matched points of the trimmed text, in order |
| Parser.ScanFormatted | script.js:17-20 | searching a list of points written as `(x,y),(x,y),...` yields exactly those points |
| Parser.ScanPointsFormat | script.js:17-20 | every formatted point list is scanned back to itself |
| Parser.ParseFormat | script.js:8-25 | two or more formatted points parse back to themselves; a single one is refused as too few |
| Parser.FormatTrimmed | script.js:8 | trimming leaves formatted points unchanged |
| Greedy.RemoveAt | script.js:40 | `splice(k, 1)` leaves a list one element shorter; `RemoveAtKeepsOthers` states what it keeps |
| Greedy.RemoveAtKeepsOthers | script.js:40 | `splice(k, 1)` keeps the other points in their order and removes exactly one occurrence of the chosen point |
| Greedy.NearestIndex | script.js:34-36 | the strict-`<` `reduce` over the unvisited points picks a valid position; `NearestIndexIsNearest` shows it is a nearest point, the earliest on a tie |
| Greedy.NearestIndexIsNearest | script.js:34-36 | the point `reduce` settles on is at least as near as every unvisited point, and strictly nearer than every point before it, so a tie goes to the earliest |
| Greedy.NearestIsFirstOccurrence | script.js:34-40 | no earlier unvisited point equals the chosen one, so `indexOf` finds the chosen point itself |
| Greedy.PathLength | script.js:31-37 | the sum of the legs between consecutive stops, 0 for a route with fewer than two stops |
| Greedy.PathLengthSnoc | script.js:31-39 | appending a stop adds exactly the leg to it to the route's length |
| Greedy.GreedyFrom | script.js:33-41 | the stops the loop appends from a given position: one per unvisited point; `GreedyFromPermutation` and `GreedyFromNearest` state which and in what order |
| Greedy.GreedyTour | script.js:28-41 | the route for a non-empty point list: as many stops as points, starting at the first point |
| Greedy.GreedyFromPermutation | script.js:33-41 | the stops the loop appends are the unvisited points, with none lost and none repeated |
| Greedy.GreedyFromNearest | script.js:33-40 | each appended stop is a nearest remaining point to the stop before it |
| Greedy.GreedyTourPermutation | script.js:28-41 | the route has one stop per input point, starts at the first point and is a permutation of the input |
| Greedy.GreedyTourNearest | script.js:33-40 | every stop after the first minimises the distance from the previous stop among the points not yet visited |
| Greedy.LoopStart | script.js:28-31 | after `shift`, the route `[points[0]]` and the remaining points satisfy the loop invariant |
| Greedy.LoopStep | script.js:33-41 | one iteration keeps the invariant: the route plus the greedy continuation is the whole tour, and the route plus the unvisited points is a permutation of the input |
| Greedy.LoopEnd | script.js:33 | when `unvisited` is empty, the route is the whole greedy tour |
| Greedy.SquareTour | script.js:27-41 | for (0,0),(10,0),(10,10),(0,10) the route visits the points in that order with total distance 30 |
| Greedy.FindNearest | script.js:34-36 | the `reduce` loop returns the index the specification `NearestIndex` picks |
| Greedy.IndexOf | script.js:40 | `indexOf` returns the first position holding the point, or -1 exactly when the point is absent |
| Greedy.GreedyRoute | script.js:27-41 | the loop terminates with the greedy tour: same length as the input, starting at the first point, a permutation of it, and `totalDistance` is the sum of `distance` over consecutive stops |
| Optimizer.OptimizeRoute | script.js:7-41 | input is refused exactly when `Parse` refuses it, and with the same error; otherwise the result is the greedy tour of the parsed points with its path length, and the tour has at least two stops |

## Left out

- Page access: reading the input element and writing `innerHTML`, including the two error messages and the route list with `toFixed(2)` (script.js:8-9, 12, 23, 44-51). `OptimizeRoute` takes the text and returns a `Result` in their place.
- Floating point: `Math.sqrt` and `Math.pow` (script.js:3) are modelled by the exact real square root (`IsEuclidean`), and `totalDistance` by the exact sum. Rounding that makes two nearly equal distances compare differently from the exact values is not modelled.
- Overflow (script.js:3, 18): `Number(...)` rounds a digit run beyond 2^53 and gives `Infinity` from about 309 significant digits (leading zeros do not count). `Math.pow` overflows to `Infinity` once a coordinate difference passes about 1.3e154. Such distances are `Infinity`, or `NaN` when both points have an infinite coordinate on the same axis. `reduce` then keeps the earliest of several points tied at `Infinity`, every comparison with `NaN` is false, and `totalDistance` becomes `Infinity` or `NaN`. The model reads every digit run as an exact natural number and computes every distance exactly, so it always picks a truly nearest point and none of these outcomes is modelled.
- Greedy.IndexOf: the source's `indexOf` compares object references. The model compares points by value. `NearestIsFirstOccurrence` shows that both find the same position, because no earlier unvisited point has the chosen value.
- Parser.ParseFormat: covers lists of one or more points. Formatting the empty list gives the empty string, which `Parse` refuses as `EmptyInput`; that case follows from `Parse` itself.
- Array identity: `unvisited`, `route` and `points` are modelled as sequences. The copy `[...points]` and the in-place `shift`, `splice` and `push` become reassignments, since no other code observes these arrays.
- The regular-expression engine in general: only the one expression `\((\d+),(\d+)\)` is modelled, together with the global search's rule of resuming right after each match.

=== FILE: geometry.dfy ===
/**
 * Points and the distance metric of script.js (`distance`, lines 2-4).
 *
 * The parser only accepts unsigned digit runs, so a point is a pair of
 * naturals. The source computes `Math.sqrt` in floating point; the model
 * keeps the exact squared distance, an integer, and takes the distance
 * itself as a function `leg` characterised by `IsEuclidean`: its value is
 * the non-negative real whose square is the squared distance.
 */
module Geometry {

  datatype Point = Point(x: nat, y: nat)

  function Square(n: int): (r: nat)
  {
    n * n
  }

  /** The squared Euclidean distance `(ax-bx)^2 + (ay-by)^2`. */
  function SqDist(a: Point, b: Point): (d: nat)
    ensures d == 0 <==> a == b
  {
    SquareZero(a.x - b.x);
    SquareZero(a.y - b.y);
    Square(a.x - b.x) + Square(a.y - b.y)
  }

  lemma SquareZero(n: int)
    ensures Square(n) == 0 <==> n == 0
  {
    if n > 0 {
      assert n * n >= n;
    } else if n < 0 {
      assert n * n >= -n;
    }
  }

  /** The distance from a to b is the distance from b to a. */
  lemma SqDistSymmetric(a: Point, b: Point)
    ensures SqDist(a, b) == SqDist(b, a)
  {
  }

  /**
   * `leg` is the exact Euclidean distance `sqrt((ax-bx)^2 + (ay-by)^2)`:
   * the non-negative real whose square is the squared distance.
   */
  ghost predicate IsEuclidean(leg: (Point, Point) -> real)
  {
    forall a, b :: leg(a, b) >= 0.0 && leg(a, b) * leg(a, b) == SqDist(a, b) as real
  }

  /** Among non-negative reals, comparing values and comparing their squares agree. */
  lemma SquaresOrdered(x: real, y: real)
    requires x >= 0.0 && y >= 0.0
    ensures x < y <==> x * x < y * y
    ensures x == y <==> x * x == y * y
  {
    if x < y {
      SquareGrows(x, y);
    } else if y < x {
      SquareGrows(y, x);
    }
  }

  lemma SquareGrows(x: real, y: real)
    requires 0.0 <= x < y
    ensures x * x < y * y
  {
    assert x * (y - x) >= 0.0;
    assert y * (y - x) > 0.0;
  }

  /** `distance(a, a) == 0`, and the distance is zero only between equal points. */
  lemma DistanceZero(leg: (Point, Point) -> real, a: Point, b: Point)
    requires IsEuclidean(leg)
    ensures leg(a, a) == 0.0
    ensures leg(a, b) == 0.0 <==> a == b
  {
    SquaresOrdered(leg(a, a), 0.0);
    SquaresOrdered(leg(a, b), 0.0);
  }

  /** `distance(a, b) == distance(b, a)`. */
  lemma DistanceSymmetric(leg: (Point, Point) -> real, a: Point, b: Point)
    requires IsEuclidean(leg)
    ensures leg(a, b) == leg(b, a)
  {
    SqDistSymmetric(a, b);
    SquaresOrdered(leg(a, b), leg(b, a));
  }

  /** A leg whose squared distance is a perfect square n * n has length exactly n. */
  lemma DistanceOfSquare(leg: (Point, Point) -> real, a: Point, b: Point, n: nat)
    requires IsEuclidean(leg) && SqDist(a, b) == n * n
    ensures leg(a, b) == n as real
  {
    SquaresOrdered(leg(a, b), n as real);
  }

  /**
   * `leg` compares distances from a common origin exactly as the squared
   * distance does, so the nearest point by one is the nearest by the other.
   */
  ghost predicate RanksLikeSqDist(leg: (Point, Point) -> real)
  {
    forall a, b, c {:trigger leg(a, b), leg(a, c)} :: leg(a, b) < leg(a, c) <==> SqDist(a, b) < SqDist(a, c)
  }

  /** Square root is monotone: the Euclidean distance ranks points as the squared distance does. */
  lemma EuclideanRanks(leg: (Point, Point) -> real)
    requires IsEuclidean(leg)
    ensures RanksLikeSqDist(leg)
  {
    forall a, b, c ensures leg(a, b) < leg(a, c) <==> SqDist(a, b) < SqDist(a, c) {
      RanksAt(leg, a, b, c);
    }
  }

  lemma RanksAt(leg: (Point, Point) -> real, a: Point, b: Point, c: Point)
    requires leg(a, b) >= 0.0 && leg(a, b) * leg(a, b) == SqDist(a, b) as real
    requires leg(a, c) >= 0.0 && leg(a, c) * leg(a, c) == SqDist(a, c) as real
    ensures leg(a, b) < leg(a, c) <==> SqDist(a, b) < SqDist(a, c)
  {
    RootsOrdered(leg(a, b), leg(a, c), SqDist(a, b), SqDist(a, c));
  }

  /** Non-negative square roots of m and n are ordered as m and n are. */
  lemma RootsOrdered(x: real, y: real, m: nat, n: nat)
    requires x >= 0.0 && y >= 0.0 && x * x == m as real && y * y == n as real
    ensures x < y <==> m < n
  {
    SquaresOrdered(x, y);
  }
}

=== FILE: greedy.dfy ===
/**
 * The greedy nearest-neighbour route of `optimizeRoute` (script.js lines
 * 27-41).
 *
 * The route starts at the first parsed point. While points remain
 * unvisited, the one nearest to the current position is chosen by
 * `unvisited.reduce` with a strict `<` (so among equally near points the
 * earliest remaining one wins), the leg to it is added to the running
 * total, it is appended to the route and removed from `unvisited` with
 * `splice`, which keeps the order of the others.
 *
 * `NearestIndex`, `GreedyFrom` and `GreedyTour` are the specification;
 * `FindNearest`, `IndexOf` and `GreedyRoute` are the loops of the source,
 * proved against it.
 */
module Greedy {
  import opened Geometry

  // ------------------------------------------------------ specification

  /** `u` without its element at k (`splice(k, 1)`). */
  function RemoveAt(u: seq<Point>, k: nat): (r: seq<Point>)
    requires k < |u|
    ensures |r| == |u| - 1
  {
    u[..k] + u[k + 1..]
  }

  /** Removing one element keeps the others, in their original order, and loses only that element. */
  lemma RemoveAtKeepsOthers(u: seq<Point>, k: nat)
    requires k < |u|
    ensures forall j :: 0 <= j < k ==> RemoveAt(u, k)[j] == u[j]
    ensures forall j :: k <= j < |u| - 1 ==> RemoveAt(u, k)[j] == u[j + 1]
    ensures multiset(RemoveAt(u, k)) + multiset{u[k]} == multiset(u)
  {
    assert u == u[..k] + [u[k]] + u[k + 1..];
  }

  /**
   * The index `unvisited.reduce` settles on: a left-to-right fold that keeps
   * the current minimum and replaces it only by a strictly nearer point.
   */
  function NearestIndex(cur: Point, u: seq<Point>): (r: nat)
    requires |u| > 0
    ensures r < |u|
  {
    if |u| == 1 then 0
    else
      var k := NearestIndex(cur, u[..|u| - 1]);
      if SqDist(cur, u[|u| - 1]) < SqDist(cur, u[k]) then |u| - 1 else k
  }

  /**
   * The point `reduce` picks is a nearest one, and every point before it is
   * strictly farther: on a tie the earliest point wins.
   */
  lemma {:induction false} NearestIndexIsNearest(cur: Point, u: seq<Point>)
    requires |u| > 0
    ensures forall j :: 0 <= j < |u| ==> SqDist(cur, u[NearestIndex(cur, u)]) <= SqDist(cur, u[j])
    ensures forall j :: 0 <= j < NearestIndex(cur, u) ==> SqDist(cur, u[NearestIndex(cur, u)]) < SqDist(cur, u[j])
  {
    if |u| > 1 {
      var p := u[..|u| - 1];
      NearestIndexIsNearest(cur, p);
      assert forall j :: 0 <= j < |u| - 1 ==> p[j] == u[j];
    }
  }

  /** The stops the greedy loop appends, starting from `cur` with `u` still unvisited. */
  function GreedyFrom(cur: Point, u: seq<Point>): (r: seq<Point>)
    ensures |r| == |u|
    decreases |u|
  {
    if u == [] then []
    else
      var k := NearestIndex(cur, u);
      [u[k]] + GreedyFrom(u[k], RemoveAt(u, k))
  }

  /** The route of the source for a non-empty point list. */
  function GreedyTour(points: seq<Point>): (r: seq<Point>)
    requires |points| > 0
    ensures |r| == |points| && r[0] == points[0]
  {
    [points[0]] + GreedyFrom(points[0], points[1..])
  }

  /** Sum of the legs between consecutive stops of a route. */
  function PathLength(leg: (Point, Point) -> real, route: seq<Point>): (r: real)
    ensures |route| < 2 ==> r == 0.0
  {
    if |route| < 2 then 0.0 else leg(route[0], route[1]) + PathLength(leg, route[1..])
  }

  // ---------------------------------------------------------- properties

  /** Growing a route by one stop adds exactly the leg to that stop. */
  lemma {:induction false} PathLengthSnoc(leg: (Point, Point) -> real, route: seq<Point>, p: Point)
    requires route != []
    ensures PathLength(leg, route + [p]) == PathLength(leg, route) + leg(route[|route| - 1], p)
    decreases |route|
  {
    if |route| == 1 {
      assert (route + [p])[1..] == [p];
    } else {
      assert (route + [p])[1..] == route[1..] + [p];
      PathLengthSnoc(leg, route[1..], p);
    }
  }

  /** The greedy stops are exactly the unvisited points: none lost, none repeated. */
  lemma {:induction false} GreedyFromPermutation(cur: Point, u: seq<Point>)
    ensures multiset(GreedyFrom(cur, u)) == multiset(u)
    decreases |u|
  {
    if u != [] {
      var k := NearestIndex(cur, u);
      GreedyFromPermutation(u[k], RemoveAt(u, k));
      RemoveAtKeepsOthers(u, k);
    }
  }

  /**
   * Along r, every stop after the first is at least as near to the stop
   * before it as any stop that comes later.
   */
  ghost predicate NearestFirst(r: seq<Point>)
  {
    forall k, m :: 1 <= k <= m < |r| ==> SqDist(r[k - 1], r[k]) <= SqDist(r[k - 1], r[m])
  }

  lemma NearestFirstCons(c: Point, t: seq<Point>)
    requires t != [] && NearestFirst(t)
    requires forall m :: 0 <= m < |t| ==> SqDist(c, t[0]) <= SqDist(c, t[m])
    ensures NearestFirst([c] + t)
  {
    var r := [c] + t;
    forall k, m | 1 <= k <= m < |r| ensures SqDist(r[k - 1], r[k]) <= SqDist(r[k - 1], r[m]) {
      assert r[k] == t[k - 1] && r[m] == t[m - 1];
      if k == 1 {
        assert r[k - 1] == c;
      } else {
        assert r[k - 1] == t[k - 2];
      }
    }
  }

  /** The greedy stops, after the position they start from, are each a nearest remaining point. */
  lemma {:induction false} GreedyFromNearest(cur: Point, u: seq<Point>)
    ensures NearestFirst([cur] + GreedyFrom(cur, u))
    decreases |u|
  {
    if u != [] {
      var k := NearestIndex(cur, u);
      var t := GreedyFrom(cur, u);
      assert t == [u[k]] + GreedyFrom(u[k], RemoveAt(u, k));
      GreedyFromNearest(u[k], RemoveAt(u, k));
      GreedyFromPermutation(u[k], RemoveAt(u, k));
      GreedyFromPermutation(cur, u);
      NearestIndexIsNearest(cur, u);
      forall m | 0 <= m < |t| ensures SqDist(cur, t[0]) <= SqDist(cur, t[m]) {
        assert t[m] in multiset(u);
        var j :| 0 <= j < |u| && u[j] == t[m];
      }
      NearestFirstCons(cur, t);
    }
  }

  /** The route has one stop per input point, starts at the first point and is a permutation of the input. */
  lemma GreedyTourPermutation(points: seq<Point>)
    requires |points| > 0
    ensures |GreedyTour(points)| == |points|
    ensures GreedyTour(points)[0] == points[0]
    ensures multiset(GreedyTour(points)) == multiset(points)
  {
    GreedyFromPermutation(points[0], points[1..]);
    FirstAndRest(points);
    assert |GreedyTour(points)| == |multiset(GreedyTour(points))|;
  }

  /** Each stop of the route after the first is a nearest remaining point to the stop before it. */
  lemma GreedyTourNearest(points: seq<Point>)
    requires |points| > 0
    ensures NearestFirst(GreedyTour(points))
  {
    GreedyFromNearest(points[0], points[1..]);
  }

  lemma FirstAndRest(s: seq<Point>)
    requires s != []
    ensures multiset([s[0]]) + multiset(s[1..]) == multiset(s)
  {
    assert s == [s[0]] + s[1..];
  }

  /**
   * The point `reduce` picks is the first occurrence of its value among the
   * unvisited points, so `indexOf` finds that very point.
   */
  lemma NearestIsFirstOccurrence(cur: Point, u: seq<Point>)
    requires |u| > 0
    ensures forall j :: 0 <= j < NearestIndex(cur, u) ==> u[j] != u[NearestIndex(cur, u)]
  {
    NearestIndexIsNearest(cur, u);
  }

  /**
   * What the greedy loop keeps: the route so far followed by the greedy
   * stops still to come is the whole tour, and together with the unvisited
   * points it accounts for every input point once.
   */
  ghost predicate LoopInvariant(points: seq<Point>, route: seq<Point>, unvisited: seq<Point>)
  {
    && |points| > 0 && route != []
    && route + GreedyFrom(route[|route| - 1], unvisited) == GreedyTour(points)
    && multiset(route) + multiset(unvisited) == multiset(points)
  }

  /** The loop starts with the first point visited and the others unvisited. */
  lemma LoopStart(points: seq<Point>)
    requires |points| > 0
    ensures LoopInvariant(points, [points[0]], points[1..])
  {
    FirstAndRest(points);
  }

  /** Moving to the nearest unvisited point keeps the loop invariant. */
  lemma LoopStep(points: seq<Point>, route: seq<Point>, unvisited: seq<Point>, k: nat)
    requires LoopInvariant(points, route, unvisited)
    requires |unvisited| > 0 && k == NearestIndex(route[|route| - 1], unvisited)
    ensures LoopInvariant(points, route + [unvisited[k]], RemoveAt(unvisited, k))
  {
    TourStep(route, unvisited, k);
    CountStep(route, unvisited, k);
  }

  lemma TourStep(route: seq<Point>, u: seq<Point>, k: nat)
    requires route != [] && |u| > 0 && k == NearestIndex(route[|route| - 1], u)
    ensures var next := route + [u[k]];
      && next[|next| - 1] == u[k]
      && next + GreedyFrom(u[k], RemoveAt(u, k)) == route + GreedyFrom(route[|route| - 1], u)
  {
    var g := GreedyFrom(u[k], RemoveAt(u, k));
    var tail := GreedyFrom(route[|route| - 1], u);
    assert tail == [u[k]] + g;
    assert (route + [u[k]]) + g == route + tail;
  }

  lemma CountStep(route: seq<Point>, u: seq<Point>, k: nat)
    requires k < |u|
    ensures multiset(route + [u[k]]) + multiset(RemoveAt(u, k)) == multiset(route) + multiset(u)
  {
    RemoveAtKeepsOthers(u, k);
  }

  /** When nothing is left unvisited, the route is the whole tour. */
  lemma LoopEnd(points: seq<Point>, route: seq<Point>)
    requires LoopInvariant(points, route, [])
    ensures route == GreedyTour(points)
  {
  }

  /**
   * The 10-by-10 square: from the corner (0,0) the nearest-neighbour route
   * goes round the square in the given order, three legs of 10.
   */
  lemma SquareTour(leg: (Point, Point) -> real)
    requires IsEuclidean(leg)
    ensures GreedyTour([Point(0, 0), Point(10, 0), Point(10, 10), Point(0, 10)])
         == [Point(0, 0), Point(10, 0), Point(10, 10), Point(0, 10)]
    ensures PathLength(leg, [Point(0, 0), Point(10, 0), Point(10, 10), Point(0, 10)]) == 30.0
  {
    var r := [Point(0, 0), Point(10, 0), Point(10, 10), Point(0, 10)];
    var u := r[1..];
    assert NearestIndex(r[0], u) == 0 by {
      assert u[..2] == [Point(10, 0), Point(10, 10)];
      assert u[..2][..1] == [Point(10, 0)];
    }
    var v := RemoveAt(u, 0);
    assert v == [Point(10, 10), Point(0, 10)];
    assert NearestIndex(r[1], v) == 0 by {
      assert v[..1] == [Point(10, 10)];
    }
    assert RemoveAt(v, 0) == [Point(0, 10)];
    assert GreedyFrom(r[2], [r[3]]) == [r[3]] by {
      assert RemoveAt([r[3]], 0) == [];
    }
    DistanceOfSquare(leg, r[0], r[1], 10);
    DistanceOfSquare(leg, r[1], r[2], 10);
    DistanceOfSquare(leg, r[2], r[3], 10);
    assert r[1..][1..] == r[2..];
    assert r[2..][1..] == r[3..];
  }

  // ---------------------------------------------------------- the loops

  /** `unvisited.reduce(...)`: the nearest unvisited point, the earliest one on a tie. */
  method FindNearest(cur: Point, u: seq<Point>, leg: (Point, Point) -> real) returns (k: nat)
    requires |u| > 0 && RanksLikeSqDist(leg)
    ensures k == NearestIndex(cur, u)
  {
    k := 0;
    var i := 1;
    while i < |u|
      invariant 1 <= i <= |u|
      invariant k == NearestIndex(cur, u[..i])
    {
      assert u[..i + 1][..i] == u[..i];
      if leg(cur, u[i]) < leg(cur, u[k]) {
        k := i;
      }
      i := i + 1;
    }
    assert u[..i] == u;
  }

  /** `unvisited.indexOf(p)`: the first position holding p, or -1. */
  method IndexOf(u: seq<Point>, p: Point) returns (idx: int)
    ensures idx == -1 <==> p !in u
    ensures idx != -1 ==> 0 <= idx < |u| && u[idx] == p
    ensures forall j :: 0 <= j < idx ==> u[j] != p
  {
    idx := 0;
    while idx < |u|
      invariant 0 <= idx <= |u|
      invariant forall j :: 0 <= j < idx ==> u[j] != p
    {
      if u[idx] == p {
        return;
      }
      idx := idx + 1;
    }
    idx := -1;
  }

  /**
   * The greedy loop of `optimizeRoute`. `leg` is the `distance` helper; the
   * route is the specified greedy tour and the total is its path length.
   */
  method GreedyRoute(points: seq<Point>, leg: (Point, Point) -> real) returns (route: seq<Point>, totalDistance: real)
    requires |points| > 0 && RanksLikeSqDist(leg)
    ensures route == GreedyTour(points)
    ensures |route| == |points| && route[0] == points[0]
    ensures multiset(route) == multiset(points)
    ensures totalDistance == PathLength(leg, route)
  {
    var unvisited := points[1..];                  // shift()
    var current := points[0];
    route := [current];
    totalDistance := 0.0;
    LoopStart(points);
    while |unvisited| > 0
      invariant LoopInvariant(points, route, unvisited)
      invariant current == route[|route| - 1]
      invariant totalDistance == PathLength(leg, route)
      decreases |unvisited|
    {
      var k := FindNearest(current, unvisited, leg);
      var nearest := unvisited[k];
      NearestIsFirstOccurrence(current, unvisited);
      var idx := IndexOf(unvisited, nearest);
      assert idx == k;
      LoopStep(points, route, unvisited, k);
      PathLengthSnoc(leg, route, nearest);
      totalDistance := totalDistance + leg(current, nearest);
      current := nearest;
      route := route + [nearest];
      unvisited := RemoveAt(unvisited, idx);
    }
    LoopEnd(points, route);
    GreedyTourPermutation(points);
  }
}

=== FILE: optimizer.dfy ===
/**
 * `optimizeRoute` of script.js (lines 7-41) without its page plumbing:
 * the text of the input field comes in as a string, and the route with its
 * total distance, or the reason the input was refused, comes out.
 */
module Optimizer {
  import opened Wrappers
  import opened Geometry
  import opened Parser
  import opened Greedy

  /** What the page displays on success: the stops in order and the total distance. */
  datatype Outcome = Outcome(route: seq<Point>, totalDistance: real)

  /**
   * Validates and parses the input, then builds the greedy route from the
   * first point. `leg` is the `distance` helper.
   */
  method OptimizeRoute(input: string, leg: (Point, Point) -> real) returns (r: Result<Outcome, ParseError>)
    requires IsEuclidean(leg)
    ensures AllWhitespace(input) ==> r == Err(EmptyInput)
    ensures r.Err? <==> Parse(input).Err?
    ensures r.Err? ==> r.error == Parse(input).error
    ensures r.Ok? ==> var points := Parse(input).value;
      && r.value.route == GreedyTour(points)
      && |r.value.route| == |points| >= 2
      && r.value.route[0] == points[0]
      && multiset(r.value.route) == multiset(points)
      && r.value.totalDistance == PathLength(leg, r.value.route)
  {
    var parsed := Parse(input);
    if parsed.Err? {
      return Err(parsed.error);
    }
    EuclideanRanks(leg);
    var route, total := GreedyRoute(parsed.value, leg);
    r := Ok(Outcome(route, total));
  }
}

=== FILE: parser.dfy ===
/**
 * Input validation and the coordinate-list scanner of `optimizeRoute`
 * (script.js lines 8-25).
 *
 * The source trims the text, rejects it when nothing is left, collects
 * every match of the regular expression `\((\d+),(\d+)\)` (global flag:
 * leftmost match first, scanning resumes right after each match), turns
 * each match into a point whose coordinates are the decimal values of its
 * two digit runs, and rejects the input when fewer than two points are
 * found. The regular expression is modelled by `Occurrence` (what a match
 * is) and `MatchAt`/`Scan` (how the global search finds them).
 */
module Parser {
  import opened Wrappers
  import opened Geometry

  datatype ParseError =
    | EmptyInput     // "Please enter valid coordinates."
    | TooFewPoints   // "Enter at least two points."

  // ---------------------------------------------------------------- trim

  /** The characters `String.prototype.trim` removes: WhiteSpace and LineTerminator. */
  predicate IsWhitespace(c: char)
  {
    c == '\t' || c == '\n' || c == '\U{000B}' || c == '\U{000C}' || c == '\r' || c == ' '
    || c == '\U{00A0}' || c == '\U{1680}' || ('\U{2000}' <= c <= '\U{200A}')
    || c == '\U{2028}' || c == '\U{2029}' || c == '\U{202F}' || c == '\U{205F}'
    || c == '\U{3000}' || c == '\U{FEFF}'
  }

  predicate AllWhitespace(s: string)
  {
    forall k :: 0 <= k < |s| ==> IsWhitespace(s[k])
  }

  /** The first position at or after i that does not hold whitespace, or the end of the text. */
  function LeadEnd(s: string, i: nat): (e: nat)
    requires i <= |s|
    ensures i <= e <= |s|
    ensures forall k :: i <= k < e ==> IsWhitespace(s[k])
    ensures e < |s| ==> !IsWhitespace(s[e])
    decreases |s| - i
  {
    if i < |s| && IsWhitespace(s[i]) then LeadEnd(s, i + 1) else i
  }

  /** The position just after the last character before j that is not whitespace, or 0. */
  function TrailStart(s: string, j: nat): (b: nat)
    requires j <= |s|
    ensures b <= j
    ensures forall k :: b <= k < j ==> IsWhitespace(s[k])
    ensures b > 0 ==> !IsWhitespace(s[b - 1])
  {
    if j > 0 && IsWhitespace(s[j - 1]) then TrailStart(s, j - 1) else j
  }

  /** Drops leading whitespace: the result is the suffix after the longest whitespace prefix. */
  function TrimStart(s: string): (r: string)
    ensures |r| <= |s|
    ensures forall k :: 0 <= k < |r| ==> r[k] == s[|s| - |r| + k]
    ensures forall k :: 0 <= k < |s| - |r| ==> IsWhitespace(s[k])
    ensures r == [] || !IsWhitespace(r[0])
  {
    s[LeadEnd(s, 0)..]
  }

  /** Drops trailing whitespace: the result is the prefix before the longest whitespace suffix. */
  function TrimEnd(s: string): (r: string)
    ensures |r| <= |s|
    ensures forall k :: 0 <= k < |r| ==> r[k] == s[k]
    ensures forall k :: |r| <= k < |s| ==> IsWhitespace(s[k])
    ensures r == [] || !IsWhitespace(r[|r| - 1])
  {
    s[..TrailStart(s, |s|)]
  }

  /** `input.trim()`: empty exactly for whitespace-only text, otherwise bounded by non-whitespace. */
  function Trim(s: string): (r: string)
    ensures r == [] <==> AllWhitespace(s)
    ensures r != [] ==> !IsWhitespace(r[0]) && !IsWhitespace(r[|r| - 1])
  {
    TrimBoth(s);
    TrimEnd(TrimStart(s))
  }

  lemma TrimBoth(s: string)
    ensures var r := TrimEnd(TrimStart(s));
      && (r == [] <==> AllWhitespace(s))
      && (r != [] ==> !IsWhitespace(r[0]))
  {
    var t := TrimStart(s);
    if TrimEnd(t) != [] {
      assert TrimEnd(t)[0] == t[0] == s[|s| - |t|];
    }
  }

  /** `trim()` keeps exactly the text between a leading and a trailing run of whitespace. */
  lemma TrimMiddle(s: string) returns (a: nat, b: nat)
    ensures a <= b <= |s| && Trim(s) == s[a..b]
    ensures forall k :: 0 <= k < a ==> IsWhitespace(s[k])
    ensures forall k :: b <= k < |s| ==> IsWhitespace(s[k])
  {
    a := LeadEnd(s, 0);
    var t := s[a..];
    var c := TrailStart(t, |t|);
    b := a + c;
    assert Trim(s) == t[..c];
    SliceOfSuffix(s, a, c);
    TrailingRun(s, a, c);
  }

  lemma SliceOfSuffix(s: string, a: nat, c: nat)
    requires a + c <= |s|
    ensures s[a..][..c] == s[a..a + c]
  {
  }

  lemma TrailingRun(s: string, a: nat, c: nat)
    requires a <= |s| && c == TrailStart(s[a..], |s| - a)
    ensures forall k :: a + c <= k < |s| ==> IsWhitespace(s[k])
  {
    var t := s[a..];
    forall k | a + c <= k < |s| ensures IsWhitespace(s[k]) {
      assert t[k - a] == s[k];
    }
  }

  // -------------------------------------------------------- digit runs

  predicate IsDigit(c: char)
  {
    '0' <= c <= '9'
  }

  /** s[a..b] is a run of decimal digits. */
  predicate DigitsIn(s: string, a: nat, b: nat)
  {
    a <= b <= |s| && forall p {:trigger IsDigit(s[p])} :: a <= p < b ==> IsDigit(s[p])
  }

  function DigitValue(c: char): (r: nat)
    requires IsDigit(c)
  {
    c as int - '0' as int
  }

  /** `Number(...)` on the digit run s[a..b] (leading zeros allowed). */
  function ValueIn(s: string, a: nat, b: nat): (r: nat)
    requires DigitsIn(s, a, b)
    decreases b - a
  {
    if b == a then 0 else 10 * ValueIn(s, a, b - 1) + DigitValue(s[b - 1])
  }

  /** The end of the longest run of digits starting at k (the greedy `\d+`). */
  function DigitRunEnd(s: string, k: nat): (e: nat)
    requires k <= |s|
    ensures k <= e <= |s| && DigitsIn(s, k, e)
    ensures e < |s| ==> !IsDigit(s[e])
    decreases |s| - k
  {
    if k < |s| && IsDigit(s[k]) then DigitRunEnd(s, k + 1) else k
  }

  /** A digit run followed by a non-digit (or the end of the text) ends where DigitRunEnd says. */
  lemma {:induction false} RunEndAt(s: string, k: nat, e: nat)
    requires DigitsIn(s, k, e)
    requires e < |s| ==> !IsDigit(s[e])
    ensures DigitRunEnd(s, k) == e
    decreases e - k
  {
    if k < e {
      RunEndAt(s, k + 1, e);
    }
  }

  // ------------------------------------------------- the regular expression

  /** Positions of one match: `(` at start, `,` at comma, `)` just before end. */
  datatype Match = Match(start: nat, comma: nat, end: nat)

  /** s[i..j] matches `\((\d+),(\d+)\)` with its comma at c. */
  predicate Occurrence(s: string, i: nat, c: nat, j: nat)
  {
    i + 2 <= c && c + 3 <= j <= |s|
    && s[i] == '(' && DigitsIn(s, i + 1, c) && s[c] == ','
    && DigitsIn(s, c + 1, j - 1) && s[j - 1] == ')'
  }

  predicate IsMatch(s: string, m: Match)
  {
    Occurrence(s, m.start, m.comma, m.end)
  }

  /** The match of the regular expression anchored at position i, if there is one. */
  function MatchAt(s: string, i: nat): (r: Option<Match>)
    requires i <= |s|
    ensures r.Some? ==> r.value.start == i && IsMatch(s, r.value)
  {
    if i < |s| && s[i] == '(' then
      var c := DigitRunEnd(s, i + 1);
      if c > i + 1 && c < |s| && s[c] == ',' then
        var e := DigitRunEnd(s, c + 1);
        if e > c + 1 && e < |s| && s[e] == ')' then
          Some(Match(i, c, e + 1))
        else
          None
      else
        None
    else
      None
  }

  /** When MatchAt finds nothing at i, no match of the regular expression starts at i. */
  lemma NoMatchAt(s: string, i: nat)
    requires i <= |s| && MatchAt(s, i).None?
    ensures forall c: nat, j: nat :: !Occurrence(s, i, c, j)
  {
    if i < |s| && s[i] == '(' {
      var c := DigitRunEnd(s, i + 1);
      if c > i + 1 && c < |s| && s[c] == ',' {
        NoMatchAfterComma(s, i, c, DigitRunEnd(s, c + 1));
      } else {
        NoMatchAtComma(s, i, c);
      }
    }
  }

  lemma NoMatchAtComma(s: string, i: nat, c: nat)
    requires i < |s| && c == DigitRunEnd(s, i + 1)
    requires !(c > i + 1 && c < |s| && s[c] == ',')
    ensures forall c': nat, j: nat :: !Occurrence(s, i, c', j)
  {
    forall c': nat, j: nat | Occurrence(s, i, c', j) ensures false {
      RunEndAt(s, i + 1, c');
    }
  }

  lemma NoMatchAfterComma(s: string, i: nat, c: nat, e: nat)
    requires i < |s| && c == DigitRunEnd(s, i + 1) && c < |s| && s[c] == ','
    requires e == DigitRunEnd(s, c + 1)
    requires !(e > c + 1 && e < |s| && s[e] == ')')
    ensures forall c': nat, j: nat :: !Occurrence(s, i, c', j)
  {
    forall c': nat, j: nat | Occurrence(s, i, c', j) ensures false {
      RunEndAt(s, i + 1, c');
      RunEndAt(s, c + 1, j - 1);
    }
  }

  /** No match can start strictly inside another one: it holds no `(` after its first character. */
  lemma NoOpenInside(s: string, i: nat, c: nat, j: nat, p: nat)
    requires Occurrence(s, i, c, j) && i < p < j
    ensures s[p] != '('
  {
    if p < c || c < p < j - 1 {
      assert IsDigit(s[p]);
    }
  }

  /**
   * The global search `input.match(/.../g)` from position i: try a match at
   * the current position; on success record it and resume at its end,
   * otherwise move one character on.
   */
  function Scan(s: string, i: nat): (r: seq<Match>)
    requires i <= |s|
    decreases |s| - i
  {
    if i == |s| then []
    else
      match MatchAt(s, i)
      case Some(m) => [m] + Scan(s, m.end)
      case None => Scan(s, i + 1)
  }

  /** Every match in ms is a genuine match of the regular expression starting at or after i. */
  predicate ReportedFrom(s: string, i: nat, ms: seq<Match>)
  {
    forall k :: 0 <= k < |ms| ==> i <= ms[k].start && IsMatch(s, ms[k])
  }

  /** Soundness of the search: it reports only genuine matches, none before where it starts. */
  lemma {:induction false} ScanSound(s: string, i: nat)
    requires i <= |s|
    ensures ReportedFrom(s, i, Scan(s, i))
    decreases |s| - i, 1
  {
    if i < |s| {
      match MatchAt(s, i)
      case Some(m) =>
        SoundAfterMatch(s, i, m);
      case None =>
        SoundAfterSkip(s, i);
    }
  }

  lemma {:induction false} SoundAfterMatch(s: string, i: nat, m: Match)
    requires i <= |s| && MatchAt(s, i) == Some(m)
    ensures ReportedFrom(s, i, Scan(s, i))
    decreases |s| - i, 0
  {
    ScanSound(s, m.end);
    ScanCons(s, i, m);
    SoundCons(s, i, m, Scan(s, m.end));
  }

  lemma {:induction false} SoundAfterSkip(s: string, i: nat)
    requires i < |s| && MatchAt(s, i) == None
    ensures ReportedFrom(s, i, Scan(s, i))
    decreases |s| - i, 0
  {
    ScanSound(s, i + 1);
    ScanSkip(s, i);
  }

  lemma SoundCons(s: string, i: nat, m: Match, rest: seq<Match>)
    requires m.start == i && IsMatch(s, m) && ReportedFrom(s, m.end, rest)
    ensures ReportedFrom(s, i, [m] + rest)
  {
    var ms := [m] + rest;
    assert forall k :: 0 < k < |ms| ==> ms[k] == rest[k - 1];
  }

  /**
   * Completeness of the search: every match s[p..j] of the regular
   * expression that starts at or after i is among the matches reported.
   */
  lemma {:induction false} ScanFinds(s: string, i: nat, p: nat, c: nat, j: nat) returns (k: nat)
    requires i <= p && Occurrence(s, p, c, j)
    ensures k < |Scan(s, i)| && Scan(s, i)[k] == Match(p, c, j)
    decreases |s| - i, 1
  {
    match MatchAt(s, i)
    case Some(m) =>
      k := ScanFindsAfter(s, i, m, p, c, j);
    case None =>
      k := ScanFindsSkip(s, i, p, c, j);
  }

  lemma {:induction false} ScanFindsSkip(s: string, i: nat, p: nat, c: nat, j: nat) returns (k: nat)
    requires i <= p && Occurrence(s, p, c, j) && MatchAt(s, i) == None
    ensures k < |Scan(s, i)| && Scan(s, i)[k] == Match(p, c, j)
    decreases |s| - i, 0
  {
    MatchLater(s, i, p, c, j);
    ScanSkip(s, i);
    k := ScanFinds(s, i + 1, p, c, j);
  }

  lemma MatchLater(s: string, i: nat, p: nat, c: nat, j: nat)
    requires i <= p && Occurrence(s, p, c, j) && MatchAt(s, i) == None
    ensures i < p
  {
    NoMatchAt(s, i);
  }

  lemma {:induction false} ScanFindsAfter(s: string, i: nat, m: Match, p: nat, c: nat, j: nat) returns (k: nat)
    requires i <= p && Occurrence(s, p, c, j) && MatchAt(s, i) == Some(m)
    ensures k < |Scan(s, i)| && Scan(s, i)[k] == Match(p, c, j)
    decreases |s| - i, 0
  {
    if p < m.end {
      FirstMatchCovers(s, i, m, p, c, j);
      ScanCons(s, i, m);
      k := 0;
    } else {
      var k' := ScanFinds(s, m.end, p, c, j);
      ScanShift(s, i, m, k');
      k := k' + 1;
    }
  }

  /** The k-th match reported from the end of the match at i is the (k+1)-th reported from i. */
  lemma ScanShift(s: string, i: nat, m: Match, k: nat)
    requires i <= |s| && MatchAt(s, i) == Some(m) && k < |Scan(s, m.end)|
    ensures k + 1 < |Scan(s, i)| && Scan(s, i)[k + 1] == Scan(s, m.end)[k]
  {
    ScanCons(s, i, m);
  }

  /** Matches that do not overlap and come in the order of the text. */
  predicate InTextOrder(ms: seq<Match>)
  {
    forall k :: 0 < k < |ms| ==> ms[k - 1].end <= ms[k].start
  }

  /** The reported matches do not overlap and come in the order of the text. */
  lemma {:induction false} ScanOrdered(s: string, i: nat)
    requires i <= |s|
    ensures InTextOrder(Scan(s, i))
    decreases |s| - i, 1
  {
    if i < |s| {
      match MatchAt(s, i)
      case Some(m) =>
        OrderedAfterMatch(s, i, m);
      case None =>
        OrderedAfterSkip(s, i);
    }
  }

  lemma {:induction false} OrderedAfterSkip(s: string, i: nat)
    requires i < |s| && MatchAt(s, i) == None
    ensures InTextOrder(Scan(s, i))
    decreases |s| - i, 0
  {
    ScanOrdered(s, i + 1);
    ScanSkip(s, i);
  }

  lemma {:induction false} OrderedAfterMatch(s: string, i: nat, m: Match)
    requires i <= |s| && MatchAt(s, i) == Some(m)
    ensures InTextOrder(Scan(s, i))
    decreases |s| - i, 0
  {
    ScanOrdered(s, m.end);
    ScanSound(s, m.end);
    ScanCons(s, i, m);
    OrderedCons(m, Scan(s, m.end));
  }

  lemma OrderedCons(m: Match, rest: seq<Match>)
    requires InTextOrder(rest)
    requires forall k :: 0 <= k < |rest| ==> m.end <= rest[k].start
    ensures InTextOrder([m] + rest)
  {
    var ms := [m] + rest;
    assert forall k :: 0 < k < |ms| ==> ms[k] == rest[k - 1];
  }

  /** A match at i is the first one reported from i; the search goes on from its end. */
  lemma ScanCons(s: string, i: nat, m: Match)
    requires i <= |s| && MatchAt(s, i) == Some(m)
    ensures Scan(s, i) == [m] + Scan(s, m.end)
  {
  }

  /** Without a match at i the search goes on from the next position. */
  lemma ScanSkip(s: string, i: nat)
    requires i < |s| && MatchAt(s, i) == None
    ensures Scan(s, i) == Scan(s, i + 1)
  {
  }

  lemma FirstMatchCovers(s: string, i: nat, m: Match, p: nat, c: nat, j: nat)
    requires i <= |s| && MatchAt(s, i) == Some(m)
    requires i <= p < m.end && Occurrence(s, p, c, j)
    ensures m == Match(p, c, j)
  {
    if p > i {
      NoOpenInside(s, i, m.comma, m.end, p);
      assert false;
    } else {
      OccurrenceUnique(s, p, c, j, m.comma, m.end);
    }
  }

  /** A match is determined by its start: the comma and the end follow from the text. */
  lemma OccurrenceUnique(s: string, i: nat, c: nat, j: nat, c': nat, j': nat)
    requires Occurrence(s, i, c, j) && Occurrence(s, i, c', j')
    ensures c == c' && j == j'
  {
    RunEndAt(s, i + 1, c);
    RunEndAt(s, i + 1, c');
    RunEndAt(s, c + 1, j - 1);
    RunEndAt(s, c + 1, j' - 1);
  }

  // ------------------------------------------------------------ points

  /** `pt.replace(/[()]/g, "").split(",").map(Number)`: the decimal values of the two runs. */
  function MatchPoint(s: string, m: Match): (r: Point)
    requires IsMatch(s, m)
  {
    Point(ValueIn(s, m.start + 1, m.comma), ValueIn(s, m.comma + 1, m.end - 1))
  }

  function MatchPoints(s: string, ms: seq<Match>): (ps: seq<Point>)
    requires forall k :: 0 <= k < |ms| ==> IsMatch(s, ms[k])
    ensures |ps| == |ms|
  {
    if ms == [] then [] else [MatchPoint(s, ms[0])] + MatchPoints(s, ms[1..])
  }

  /**
   * The points the global search yields from position i on, read as it
   * goes: the same search as `Scan`, one point per match.
   */
  function PointsFrom(s: string, i: nat): (r: seq<Point>)
    requires i <= |s|
    decreases |s| - i
  {
    if i == |s| then []
    else
      match MatchAt(s, i)
      case Some(m) => [MatchPoint(s, m)] + PointsFrom(s, m.end)
      case None => PointsFrom(s, i + 1)
  }

  /** The points read during the search are the points of the matches it reports, in order. */
  lemma {:induction false} PointsFromMatches(s: string, i: nat)
    requires i <= |s|
    ensures ReportedFrom(s, i, Scan(s, i)) && PointsFrom(s, i) == MatchPoints(s, Scan(s, i))
    decreases |s| - i, 1
  {
    ScanSound(s, i);
    if i < |s| {
      match MatchAt(s, i)
      case Some(m) =>
        PointsAfterMatch(s, i, m);
      case None =>
        PointsFromMatches(s, i + 1);
        ScanSkip(s, i);
    }
  }

  lemma {:induction false} PointsAfterMatch(s: string, i: nat, m: Match)
    requires i <= |s| && MatchAt(s, i) == Some(m)
    ensures ReportedFrom(s, i, Scan(s, i)) && PointsFrom(s, i) == MatchPoints(s, Scan(s, i))
    decreases |s| - i, 0
  {
    PointsFromMatches(s, m.end);
    ScanSound(s, i);
    ScanCons(s, i, m);
    var rest := Scan(s, m.end);
    assert ([m] + rest)[1..] == rest;
  }

  /** The points of all matches in s, left to right. */
  function ScanPoints(s: string): (r: seq<Point>)
  {
    PointsFrom(s, 0)
  }

  /** The validation and parsing part of `optimizeRoute`. */
  function Parse(input: string): (r: Result<seq<Point>, ParseError>)
    ensures r == Err(EmptyInput) <==> AllWhitespace(input)
    ensures r == Err(TooFewPoints) <==> !AllWhitespace(input) && |ScanPoints(Trim(input))| < 2
    ensures r.Ok? ==> r.value == ScanPoints(Trim(input)) && |r.value| >= 2
  {
    var t := Trim(input);
    if t == [] then Err(EmptyInput)
    else
      var points := ScanPoints(t);
      if |points| < 2 then Err(TooFewPoints) else Ok(points)
  }

  // -------------------------------------------------- the inverse: Format

  function DigitChar(d: nat): (c: char)
    requires d < 10
    ensures IsDigit(c) && c as int - '0' as int == d
  {
    ('0' as int + d) as char
  }

  /** The shortest decimal numeral of n. */
  function NatToDigits(n: nat): (t: string)
    ensures t != []
  {
    if n < 10 then [DigitChar(n)] else NatToDigits(n / 10) + [DigitChar(n % 10)]
  }

  /** `Number(String(n)) == n`: the numeral of n is a run of digits whose value is n. */
  lemma {:induction false} NumeralValue(n: nat)
    ensures var t := NatToDigits(n); DigitsIn(t, 0, |t|) && ValueIn(t, 0, |t|) == n
    decreases n
  {
    if n >= 10 {
      var u := NatToDigits(n / 10);
      NumeralValue(n / 10);
      ValuePrefix(u, [DigitChar(n % 10)], |u|);
    }
  }

  /** Appending characters does not change the value of a run inside the original text. */
  lemma {:induction false} ValuePrefix(u: string, v: string, b: nat)
    requires DigitsIn(u, 0, b)
    ensures DigitsIn(u + v, 0, b) && ValueIn(u + v, 0, b) == ValueIn(u, 0, b)
    decreases b
  {
    if b > 0 {
      ValuePrefix(u, v, b - 1);
    }
  }

  /** One point written the way the input field expects it, `(x,y)`. */
  function Render(p: Point): (r: string)
  {
    "(" + NatToDigits(p.x) + "," + NatToDigits(p.y) + ")"
  }

  /** A point list written as `(x1,y1),(x2,y2),...`. */
  function Format(ps: seq<Point>): (r: string)
  {
    if ps == [] then ""
    else if |ps| == 1 then Render(ps[0])
    else Render(ps[0]) + "," + Format(ps[1..])
  }

  /**
   * s holds `(x,y)` from i on, with its comma at c and its closing bracket
   * at e: non-empty digit runs of the values p.x and p.y between them.
   */
  predicate FieldsAt(s: string, i: nat, c: nat, e: nat, p: Point)
  {
    i + 1 < c && c + 1 < e < |s|
    && s[i] == '(' && s[c] == ',' && s[e] == ')'
    && DigitsIn(s, i + 1, c) && ValueIn(s, i + 1, c) == p.x
    && DigitsIn(s, c + 1, e) && ValueIn(s, c + 1, e) == p.y
  }

  /** A written point is a match of the regular expression there, and it reads back as that point. */
  lemma MatchFields(s: string, i: nat, c: nat, e: nat, p: Point)
    requires FieldsAt(s, i, c, e, p)
    ensures MatchAt(s, i) == Some(Match(i, c, e + 1))
    ensures MatchPoint(s, Match(i, c, e + 1)) == p
  {
    RunEndAt(s, i + 1, c);
    RunEndAt(s, c + 1, e);
  }

  /** From position i to its end, s is the formatted text of ps. */
  predicate FormattedAt(s: string, i: nat, ps: seq<Point>)
  {
    var t := Format(ps);
    i + |t| == |s| && forall k :: 0 <= k < |t| ==> s[i + k] == t[k]
  }

  /** The search over formatted points finds exactly those points, in order. */
  lemma {:induction false} ScanFormatted(s: string, i: nat, ps: seq<Point>)
    requires FormattedAt(s, i, ps)
    ensures PointsFrom(s, i) == ps
    decreases |ps|, 1
  {
    if ps != [] {
      var m := FormattedMatch(s, i, ps);
      if |ps| > 1 {
        ScanFormattedRest(s, i, m, ps);
      } else {
        PointsLast(s, i, m);
      }
    }
  }

  lemma {:induction false} ScanFormattedRest(s: string, i: nat, m: Match, ps: seq<Point>)
    requires i < |s| && MatchAt(s, i) == Some(m) && |ps| > 1 && MatchPoint(s, m) == ps[0]
    requires m.end < |s| && s[m.end] == ',' && FormattedAt(s, m.end + 1, ps[1..])
    ensures PointsFrom(s, i) == ps
    decreases |ps|, 0
  {
    ScanFormatted(s, m.end + 1, ps[1..]);
    PointsThenComma(s, i, m, ps[1..]);
    assert [ps[0]] + ps[1..] == ps;
  }

  /** A match followed by a comma: its point comes first, then the points after the comma. */
  lemma PointsThenComma(s: string, i: nat, m: Match, rest: seq<Point>)
    requires i <= |s| && MatchAt(s, i) == Some(m)
    requires m.end < |s| && s[m.end] == ',' && PointsFrom(s, m.end + 1) == rest
    ensures PointsFrom(s, i) == [MatchPoint(s, m)] + rest
  {
    CommaSkipped(s, m.end);
  }

  /** A match that ends the text yields its point alone. */
  lemma PointsLast(s: string, i: nat, m: Match)
    requires i <= |s| && MatchAt(s, i) == Some(m) && m.end == |s|
    ensures PointsFrom(s, i) == [MatchPoint(s, m)]
  {
  }

  /**
   * The first formatted point is the match at i and reads back as that
   * point; after it comes the end of the text, or a comma and the rest.
   */
  lemma FormattedMatch(s: string, i: nat, ps: seq<Point>) returns (m: Match)
    requires FormattedAt(s, i, ps) && ps != []
    ensures i < |s| && MatchAt(s, i) == Some(m) && MatchPoint(s, m) == ps[0]
    ensures |ps| == 1 ==> m.end == |s|
    ensures |ps| > 1 ==> m.end < |s| && s[m.end] == ',' && FormattedAt(s, m.end + 1, ps[1..])
  {
    var c, e := FormatHead(s, i, ps);
    MatchFields(s, i, c, e, ps[0]);
    m := Match(i, c, e + 1);
    if |ps| > 1 {
      RestFormatted(s, i, ps);
    }
  }

  /** The first formatted point in place, then the end, or a comma and the rest formatted. */
  lemma FormatHead(s: string, i: nat, ps: seq<Point>) returns (c: nat, e: nat)
    requires FormattedAt(s, i, ps) && ps != []
    ensures e + 1 == i + |Render(ps[0])| && FieldsAt(s, i, c, e, ps[0])
    ensures |ps| == 1 ==> e + 1 == |s|
    ensures |ps| > 1 ==> e + 1 < |s| && s[e + 1] == ','
  {
    FirstRendered(s, i, ps);
    c, e := RenderedAt(s, i, ps[0]);
    if |ps| > 1 {
      RestFormatted(s, i, ps);
    }
  }

  /** Formatted text holds the first point rendered where it starts. */
  lemma FirstRendered(s: string, i: nat, ps: seq<Point>)
    requires FormattedAt(s, i, ps) && ps != []
    ensures var r := Render(ps[0]);
      && i + |r| <= |s| && (forall k :: 0 <= k < |r| ==> s[i + k] == r[k])
      && (|ps| == 1 ==> i + |r| == |s|)
  {
    FormatStart(ps);
    var t, r := Format(ps), Render(ps[0]);
    forall k | 0 <= k < |r| ensures s[i + k] == r[k] {
      assert s[i + k] == t[k];
    }
  }

  /** Formatted text holds, after the first rendered point, a comma and the rest formatted. */
  lemma RestFormatted(s: string, i: nat, ps: seq<Point>)
    requires FormattedAt(s, i, ps) && |ps| > 1
    ensures var n := i + |Render(ps[0])|;
      n < |s| && s[n] == ',' && FormattedAt(s, n + 1, ps[1..])
  {
    FormatRest(ps);
    var t, r, u := Format(ps), Render(ps[0]), Format(ps[1..]);
    assert s[i + |r|] == t[|r|];
    forall k | 0 <= k < |u| ensures s[i + |r| + 1 + k] == u[k] {
      assert s[i + |r| + 1 + k] == t[|r| + 1 + k];
    }
  }

  /** A rendered point inside s: its comma, its closing bracket and its two digit runs. */
  lemma RenderedAt(s: string, i: nat, p: Point) returns (c: nat, e: nat)
    requires var r := Render(p); i + |r| <= |s| && forall k :: 0 <= k < |r| ==> s[i + k] == r[k]
    ensures c == i + 1 + |NatToDigits(p.x)| && e == c + 1 + |NatToDigits(p.y)|
    ensures e + 1 == i + |Render(p)| && FieldsAt(s, i, c, e, p)
  {
    c := i + 1 + |NatToDigits(p.x)|;
    e := c + 1 + |NatToDigits(p.y)|;
    RenderedPieces(s, i, p);
    NumeralAt(s, i + 1, p.x);
    NumeralAt(s, c + 1, p.y);
  }

  /** The brackets, the comma and the two numerals of a rendered point inside s. */
  lemma RenderedPieces(s: string, i: nat, p: Point)
    requires var r := Render(p); i + |r| <= |s| && forall k :: 0 <= k < |r| ==> s[i + k] == r[k]
    ensures var dx, dy := NatToDigits(p.x), NatToDigits(p.y);
      var c := i + 1 + |dx|; var e := c + 1 + |dy|;
      && e + 1 == i + |Render(p)|
      && s[i] == '(' && s[c] == ',' && s[e] == ')'
      && (forall k :: 0 <= k < |dx| ==> s[i + 1 + k] == dx[k])
      && (forall k :: 0 <= k < |dy| ==> s[c + 1 + k] == dy[k])
  {
    var r := Render(p);
    var dx, dy := NatToDigits(p.x), NatToDigits(p.y);
    RenderChars(p);
    assert s[i] == r[0] && s[i + 1 + |dx|] == r[1 + |dx|] && s[i + |r| - 1] == r[|r| - 1];
    CopyInside(s, i, r, 1, dx);
    CopyInside(s, i, r, 2 + |dx|, dy);
  }

  /** A piece t of r, at offset d in r, sits at offset d from where r is copied into s. */
  lemma CopyInside(s: string, i: nat, r: string, d: nat, t: string)
    requires i + |r| <= |s| && forall k :: 0 <= k < |r| ==> s[i + k] == r[k]
    requires d + |t| <= |r| && forall k :: 0 <= k < |t| ==> r[d + k] == t[k]
    ensures forall k :: 0 <= k < |t| ==> s[i + d + k] == t[k]
  {
    forall k | 0 <= k < |t| ensures s[i + d + k] == t[k] {
      assert s[i + (d + k)] == r[d + k];
    }
  }

  /** A copy of the numeral of n inside s, from a on, is a digit run there whose value is n. */
  lemma NumeralAt(s: string, a: nat, n: nat)
    requires var t := NatToDigits(n); a + |t| <= |s| && forall k :: 0 <= k < |t| ==> s[a + k] == t[k]
    ensures var t := NatToDigits(n); DigitsIn(s, a, a + |t|) && ValueIn(s, a, a + |t|) == n
  {
    NumeralValue(n);
    CopiedRun(s, a, NatToDigits(n), |NatToDigits(n)|);
  }

  /** Where the brackets, the comma and the two numerals sit in a rendered point. */
  lemma RenderChars(p: Point)
    ensures var r, dx, dy := Render(p), NatToDigits(p.x), NatToDigits(p.y);
      && |r| == |dx| + |dy| + 3
      && r[0] == '(' && r[1 + |dx|] == ',' && r[|r| - 1] == ')'
      && (forall k :: 0 <= k < |dx| ==> r[1 + k] == dx[k])
      && (forall k :: 0 <= k < |dy| ==> r[2 + |dx| + k] == dy[k])
  {
  }

  /** Formatted points start with the first one rendered, which is all of them when it is alone. */
  lemma FormatStart(ps: seq<Point>)
    requires ps != []
    ensures var t, r := Format(ps), Render(ps[0]);
      && |r| <= |t|
      && (forall k :: 0 <= k < |r| ==> t[k] == r[k])
      && (|ps| == 1 ==> |t| == |r|)
  {
  }

  /** After the first rendered point come a comma and the rest, formatted. */
  lemma FormatRest(ps: seq<Point>)
    requires |ps| > 1
    ensures var t, r := Format(ps), Render(ps[0]);
      && |t| == |r| + 1 + |Format(ps[1..])| && t[|r|] == ','
      && forall k :: 0 <= k < |Format(ps[1..])| ==> t[|r| + 1 + k] == Format(ps[1..])[k]
  {
  }

  /** A copy of the numeral t inside s, from a on, is a digit run there with the same value. */
  lemma {:induction false} CopiedRun(s: string, a: nat, t: string, n: nat)
    requires n <= |t| && a + n <= |s| && DigitsIn(t, 0, n)
    requires forall k :: 0 <= k < n ==> s[a + k] == t[k]
    ensures DigitsIn(s, a, a + n) && ValueIn(s, a, a + n) == ValueIn(t, 0, n)
    decreases n
  {
    if n > 0 {
      CopiedRun(s, a, t, n - 1);
      assert s[a + (n - 1)] == t[n - 1];
    }
  }

  /** A comma cannot start a match: the search moves past it. */
  lemma CommaSkipped(s: string, e: nat)
    requires e < |s| && s[e] == ','
    ensures PointsFrom(s, e) == PointsFrom(s, e + 1)
  {
  }

  /** Scanning formatted points gives the points back. */
  lemma ScanPointsFormat(ps: seq<Point>)
    ensures ScanPoints(Format(ps)) == ps
  {
    var s := Format(ps);
    assert FormattedAt(s, 0, ps);
    ScanFormatted(s, 0, ps);
  }

  /** Two or more formatted points parse back to themselves; a single one is refused as too few. */
  lemma ParseFormat(ps: seq<Point>)
    ensures |ps| >= 2 ==> Parse(Format(ps)) == Ok(ps)
    ensures |ps| == 1 ==> Parse(Format(ps)) == Err(TooFewPoints)
  {
    if ps != [] {
      ScanPointsFormat(ps);
      FormatTrimmed(ps);
      ParseTrimmed(Format(ps), ps);
    }
  }

  /** Text that is not empty and that trimming leaves alone is parsed as it stands. */
  lemma ParseTrimmed(s: string, ps: seq<Point>)
    requires s != [] && Trim(s) == s && ScanPoints(s) == ps
    ensures |ps| >= 2 ==> Parse(s) == Ok(ps)
    ensures |ps| < 2 ==> Parse(s) == Err(TooFewPoints)
  {
  }

  /** Formatted points start with `(` and end with `)`, so trimming leaves them alone. */
  lemma FormatTrimmed(ps: seq<Point>)
    requires ps != []
    ensures Trim(Format(ps)) == Format(ps)
  {
    FormatEnds(ps);
    TrimUnchanged(Format(ps));
  }

  lemma {:induction false} FormatEnds(ps: seq<Point>)
    requires ps != []
    ensures Format(ps) != [] && Format(ps)[0] == '('
    ensures Format(ps)[|Format(ps)| - 1] == ')'
  {
    if |ps| > 1 {
      FormatEnds(ps[1..]);
    }
  }

  lemma TrimUnchanged(s: string)
    requires s != [] && !IsWhitespace(s[0]) && !IsWhitespace(s[|s| - 1])
    ensures Trim(s) == s
  {
    assert TrimStart(s) == s;
    assert TrimEnd(s) == s;
  }
}

=== FILE: wrappers.dfy ===
/** Option and Result values for the error paths of the route optimizer. */
module Wrappers {

  datatype Option<+T> = None | Some(value: T)

  datatype Result<+R, +E> = Ok(value: R) | Err(error: E)
}
